=== FILE: README.md ===
# meson dist injector, modelled in Dafny

`scripts/meson_dist_injecter.py` repairs a zip archive made by
`meson dist`. It walks a `subprojects/packagefiles` directory (the search
root) and appends every file it finds to the archive. Each file is stored
under the archive's base name followed by `/subprojects`. A file is
skipped when its in-archive name (its *arcname*) is already among the
archive's entry names. The list of names is read once, before the first
write, so two walked files with the same arcname are both appended.

The model has five modules:

- `Text` holds Python's `str.replace` (replace every occurrence, left to right).
- `PurePath` holds `pathlib`'s `name` and `stem`.
- `Arcnames` maps a walked path to its arcname. It has two versions: the
  script's replace-all, and the intended prefix mapping (see Findings).
- `Archive` is the zip archive, seen as an ordered sequence of named entries.
- `Injector` holds the `additions` generator in both versions, the
  append-mode open of the archive, the append loop with its one-time
  listing, and `main`.

The append loop is a left fold of one-step functions (`Injector.Step`,
`Injector.Fold`, `Injector.Merge`). It is proved equal to two independent
reference filters (`Injector.Appended`, `Injector.Skipped`). The loop in
`Injector.Inject` is proved to compute the same fold. `Injector.Inject`
names files as the script does (`Injector.AdditionsAsWritten`).
`Injector.Additions` is the corrected generator. For a file under the
root, the two agree exactly when its relative part does not repeat the
search root.

## Model

| member | source | states |
|---|---|---|
| Text.ReplaceAll | scripts/meson_dist_injecter.py:69-72 | `str.replace` replacing every occurrence; replacing a pattern by itself changes nothing |
| Text.ReplaceAbsent | scripts/meson_dist_injecter.py:69-72 | a string in which the (non-empty) search root never occurs is returned unchanged |
| Text.ReplaceLeading | scripts/meson_dist_injecter.py:69-72 | a leading occurrence is replaced and the rest is processed on its own |
| Text.ReplaceKeepsUntouchedPrefix | scripts/meson_dist_injecter.py:69-72 | a prefix in which no occurrence starts is copied unchanged |
| Text.ReplaceNotShorter | scripts/meson_dist_injecter.py:69-72 | a replacement at least as long as the pattern never shortens the string |
| Text.ReplaceNotLonger | scripts/meson_dist_injecter.py:69-72 | a replacement at most as long as the pattern never lengthens the string |
| Text.ReplaceChangesOccurring | scripts/meson_dist_injecter.py:69-72 | replacing a pattern that occurs by a different string always changes the string |
| Text.ReplaceEmptyLength | scripts/meson_dist_injecter.py:69-72 | an empty search root inserts the replacement around every character: the length grows by (n+1) copies |
| PurePath.RFind | scripts/meson_dist_injecter.py:65 | index of the last occurrence of a character, or -1 when there is none |
| PurePath.Name | scripts/meson_dist_injecter.py:65 | the final path component: a slash-free suffix of the path, preceded by a slash when it is not the whole path |
| PurePath.Stem | scripts/meson_dist_injecter.py:65 | a prefix of the name; when shorter, it stops at a dot that is neither first nor last, and no dot follows it |
| PurePath.StemDropsFinalSuffix | scripts/meson_dist_injecter.py:65 | only the final suffix is removed: `base.ext` with a dot-free `ext` has stem `base`, even when `base` has dots (`foo-1.0.zip` gives `foo-1.0`) |
| PurePath.StemKeepsNameWithoutSuffix | scripts/meson_dist_injecter.py:65 | a name whose last dot is its first or last character, or that has no dot, is its own stem (`a.b.` stays `a.b.`); with the lemma above every name is covered |
| PurePath.NameOfJoin | scripts/meson_dist_injecter.py:65 | the name of `dir/file` is `file` when `file` has no slash |
| PurePath.StemOfArchivePath | scripts/meson_dist_injecter.py:65 | the archive `dir/base.ext` has base name `base` |
| Arcnames.SubprojectsDir | scripts/meson_dist_injecter.py:71 | `aname/subprojects`: starts with `aname`, then a slash, 12 characters longer |
| Arcnames.ArcnameAsWritten | scripts/meson_dist_injecter.py:69-72 | the script's arcname, with every occurrence of the root replaced |
| Arcnames.Arcname | scripts/meson_dist_injecter.py:69-72 | the intended arcname: under the root it is the subprojects directory followed by exactly the path's relative part |
| Arcnames.ArcnameAsWrittenUnderRoot | scripts/meson_dist_injecter.py:69-72 | under the root the script's arcname starts with the subprojects directory; when the root does not recur it agrees with the intended arcname |
| Arcnames.ArcnameAsWrittenOfRootedPath | scripts/meson_dist_injecter.py:69-72 | the same for a path under the root given whole: the subprojects directory, then the replace-all of the relative part |
| Arcnames.ArcnameOutsideRoot | scripts/meson_dist_injecter.py:69-72 | a path not containing the root is kept unchanged by both mappings |
| Arcnames.ArcnameRoundTrip | scripts/meson_dist_injecter.py:69-72 | root + relative part of the intended arcname gives back the walked path |
| Arcnames.ArcnameInjective | scripts/meson_dist_injecter.py:69-72 | different files under the root get different intended arcnames |
| Arcnames.ArcnameAsWrittenRewritesNestedRoot | scripts/meson_dist_injecter.py:69-72 | a root repeated once inside the relative part is rewritten by the script into the subprojects directory, while the intended mapping keeps it |
| Arcnames.ArcnameAsWrittenAgreesIffNoNestedRoot | scripts/meson_dist_injecter.py:69-72 | under the root the two mappings agree exactly when the relative part does not contain the root, however often it recurs (for a root not spelled like the subprojects directory) |
| Arcnames.NestedRootExample | scripts/meson_dist_injecter.py:69-72 | `/pkgs/zlib/pkgs/meson.build` under root `/pkgs` and stem `foo` is stored as `foo/subprojects/zlibfoo/subprojects/meson.build` instead of `foo/subprojects/zlib/pkgs/meson.build` |
| Arcnames.ArcnameAsWrittenNotInjective | scripts/meson_dist_injecter.py:69-72 | the script can give two different walked files the same arcname |
| Archive.Names | scripts/meson_dist_injecter.py:76 | `namelist()`: one name per entry, in archive order |
| Archive.Count | scripts/meson_dist_injecter.py:76-81 | occurrences of a name; zero exactly when the name is absent |
| Archive.CountConcat | scripts/meson_dist_injecter.py:76-81 | counts add up over concatenation |
| Archive.CountTwo | scripts/meson_dist_injecter.py:76-81 | a value at two different indices is counted at least twice |
| Archive.DistinctConcat | scripts/meson_dist_injecter.py:76-81 | a concatenation has no repeats exactly when neither part has any and they share no value |
| Injector.ArchiveStem | scripts/meson_dist_injecter.py:65 | `Path(archive).stem` is a prefix of the archive's file name |
| Injector.Additions | scripts/meson_dist_injecter.py:62-73 | one candidate per walked file, in walk order, with its path and content; under the root its arcname is the subprojects directory plus the relative part |
| Injector.AdditionsAsWritten | scripts/meson_dist_injecter.py:62-73 | the script's generator: one candidate per walked file, in walk order, with its path and content |
| Injector.AdditionsAsWrittenUnderRoot | scripts/meson_dist_injecter.py:62-73 | the script's arcname for a file under the root is the subprojects directory followed by the replace-all of the relative part |
| Injector.AdditionsMatchSource | scripts/meson_dist_injecter.py:62-73 | the corrected generator equals the script's whenever the root does not recur in a walked path |
| Injector.AdditionsAgreeIffNoNestedRoot | scripts/meson_dist_injecter.py:62-73 | a walked file under the root gets the same arcname from both generators exactly when its relative part does not repeat the root, once or many times |
| Injector.AdditionsArcnamesDistinct | scripts/meson_dist_injecter.py:62-73 | the corrected generator gives distinct walked files under the root distinct arcnames |
| Injector.Opened | scripts/meson_dist_injecter.py:75 | opening in mode `'a'`: an existing zip keeps its entries, a missing file or a non-zip file starts with no entries |
| Injector.ArcnamesOf | scripts/meson_dist_injecter.py:77 | the candidates' arcnames, index by index |
| Injector.Step | scripts/meson_dist_injecter.py:78-81 | a listed arcname leaves the archive unchanged and is reported; an unlisted one appends exactly one entry with its name and content |
| Injector.Fold | scripts/meson_dist_injecter.py:77-81 | the loop only extends the archive and the report; appended names are unlisted, reported names are listed, and every candidate lands in exactly one of them |
| Injector.Merge | scripts/meson_dist_injecter.py:75-81 | the original entries are a prefix of the result; added names are outside the snapshot, reported ones inside it |
| Injector.Appended | scripts/meson_dist_injecter.py:78-81 | reference filter for the appended entries: only names outside the listing |
| Injector.Skipped | scripts/meson_dist_injecter.py:78-80 | reference filter for the reported candidates: only candidates whose arcname is in the listing |
| Injector.FoldIsFilter | scripts/meson_dist_injecter.py:77-81 | the loop appends exactly the unlisted candidates and reports exactly the listed ones, both in walk order |
| Injector.FoldAppends | scripts/meson_dist_injecter.py:77-81 | the appending half of the equality above |
| Injector.FoldSkips | scripts/meson_dist_injecter.py:77-80 | the reporting half of the equality above |
| Injector.MergeIsFilter | scripts/meson_dist_injecter.py:75-81 | the whole run is the original archive plus the unlisted candidates in walk order, reporting the listed ones |
| Injector.AppendedHasCandidate | scripts/meson_dist_injecter.py:81 | every unlisted candidate contributes an entry with its arcname and content |
| Injector.SkippedHasCandidate | scripts/meson_dist_injecter.py:78-80 | every listed candidate is reported |
| Injector.AppendedNameCount | scripts/meson_dist_injecter.py:76-81 | a listed name is never appended; an unlisted one is appended once per candidate that has it |
| Injector.MergeNameCount | scripts/meson_dist_injecter.py:76-81 | a name's count after the run: unchanged if it was in the snapshot, else grown by the number of candidates with it |
| Injector.MergeDuplicatesWithinRun | scripts/meson_dist_injecter.py:76-81 | because the snapshot is taken only once, two candidates with one unlisted arcname are both appended, so the name occurs at least twice |
| Injector.MergeNoOverwrite | scripts/meson_dist_injecter.py:75-81 | a candidate named like an existing entry is reported, and that entry keeps its place and content |
| Injector.MergeCoversCandidates | scripts/meson_dist_injecter.py:76-81 | after the run every candidate's arcname is among the archive's names |
| Injector.FoldAllListed | scripts/meson_dist_injecter.py:77-80 | when every arcname is listed the loop changes nothing and reports all |
| Injector.MergeIdempotent | scripts/meson_dist_injecter.py:75-81 | a second run with the same files adds nothing and reports every file |
| Injector.MergeKeepsNamesDistinct | scripts/meson_dist_injecter.py:76-81 | an archive free of repeated names stays so exactly when the appended arcnames are distinct |
| Injector.MergeIntoEmpty | scripts/meson_dist_injecter.py:75-81 | into an empty archive every candidate is appended in walk order and none is reported |
| Injector.AppendedUnlisted | scripts/meson_dist_injecter.py:78-81 | with an empty listing the filters keep every candidate, in order, and report none |
| Injector.Inject | scripts/meson_dist_injecter.py:56-83 | `main`: opens the archive for appending, names files by the script's replace-all, and its result is the merge of those candidates into the opened entries (those entries, then the unlisted candidates in walk order, the rest reported); a missing or non-zip archive gets every walked file; the exit status is 0 |

## Left out

- `os.walk` is not modelled. The walk is an input (`walk`): the paths it yields, in its order, with the content of each file. Any order the walk produces is kept.
- `expand_path` (user and variable expansion, `abspath`) is not modelled, because it depends on the environment and the working directory. The archive path and the search root are taken as already expanded.
- `PurePath.Name` assumes an `abspath`-normalised path: no trailing slash and no `.` components. Backslash separators are out of scope.
- `parse_args`, argparse and the `__main__` guard are command-line plumbing, so they are not modelled.
- The zip format itself is not modelled: headers, compression, timestamps, the central directory, and `zipfile`'s warning about a duplicate name. An archive is its sequence of entries.
- Injector.MergeIdempotent: assumes the stored name equals the arcname. `zipfile` normalises an arcname before storing it (`os.path.normpath`), and the model stores the arcname as given. The two agree, for the script's arcnames and the intended ones alike, unless the archive stem is `.`. Under the stem rule of Python 3.13 and earlier that happens for an archive named `..zip`: the arcname `./subprojects/x` is stored as `subprojects/x`, `./subprojects/x` is then not among the stored names, and a second run does not find it in the listing and appends the file again. A stem never contains a slash, and a leading `..` survives `normpath`.
- Injector.MergeCoversCandidates: assumes the stored name equals the arcname, as in the line above; with the stem `.` the arcname is not among the stored names after the run.
- Injector.Inject: the names in `after` are the arcnames as computed, not as `zipfile` stores them after normalising, which differ for the stem `.` as above.
- The `skipping:` message printed to standard output is modelled as the `skipped` output of `Injector.Inject`, which holds the reported candidates in order.
- A missing archive and a file that is not a zip archive are not errors. Mode `'a'` creates the first and starts a new archive behind the bytes of the second. Both are modelled by `Injector.Opened` as a run from no entries, which ends with status 0 (the script does not treat them as fatal).
- A missing or unreadable search root, or an unreadable subdirectory, is not an error either, because `os.walk` ignores such failures by default. It is an empty or shorter `walk`.
- Injector.Inject: does not model an exception from `zfile.write`. Such an exception comes, for example, from a walked file that cannot be read, or from a file whose modification time is before 1980 or in 2108 or later, because `zipfile` uses strict timestamps by default and cannot store these. It ends the run with a non-zero exit: line 83's `return 0` is not reached, and the `with` block at line 75 closes the archive with the entries written before the failure. The model gives every walked file its content and timestamps no entry, so it always handles every file and returns 0.
- PurePath.Stem: follows the stem rule of Python 3.13 and earlier. Later versions treat some names made of dots, or ending in a dot, differently (the `..zip` case above among them); those names are not modelled for later versions.

## Findings

| source | as written | input that shows it | evidently intended | confidence | as-written member | corrected member |
|---|---|---|---|---|---|---|
| scripts/meson_dist_injecter.py:69-72 | `fpath.replace(search_path, aname + '/subprojects')` replaces every occurrence of the search root in the walked path, including occurrences inside the relative part | search root `/pkgs`, archive `foo.zip`, file `/pkgs/zlib/pkgs/meson.build` gives `foo/subprojects/zlibfoo/subprojects/meson.build`; also `/p/q/p` and `/p/qx/subprojects` under root `/p` with stem `x` both give `x/subprojects/qx/subprojects` | only the leading root is replaced: `foo/subprojects/zlib/pkgs/meson.build`, and different files get different arcnames | medium; not executed | Arcnames.ArcnameAsWritten, Arcnames.NestedRootExample, Arcnames.ArcnameAsWrittenNotInjective, Injector.AdditionsAgreeIffNoNestedRoot | Arcnames.Arcname, Arcnames.ArcnameInjective, Arcnames.ArcnameRoundTrip, Injector.Additions, Injector.AdditionsArcnamesDistinct |

=== FILE: archive.dfy ===
/** A zip archive seen abstractly: an ordered sequence of named entries.
    Names need not be unique; `zipfile` accepts a second entry under a
    name that is already present. */
module Archive {

  /** A byte of file content. */
  type byte = b: int | 0 <= b < 256

  /** One archive member: its arcname and its content. */
  datatype Entry = Entry(name: string, data: seq<byte>)

  /** `ZipFile.namelist()`: the entry names, in archive order. */
  function Names(entries: seq<Entry>): (r: seq<string>)
    ensures |r| == |entries|
    ensures forall i :: 0 <= i < |entries| ==> r[i] == entries[i].name
  {
    seq(|entries|, i requires 0 <= i < |entries| => entries[i].name)
  }

  /** The names of two entry lists glued together are their names glued
      together. */
  lemma NamesConcat(a: seq<Entry>, b: seq<Entry>)
    ensures Names(a + b) == Names(a) + Names(b)
  {
  }

  /** The number of occurrences of `x` in `s`. */
  function Count<T(==)>(x: T, s: seq<T>): (r: nat)
    ensures r <= |s|
    ensures r == 0 <==> x !in s
    decreases |s|
  {
    if |s| == 0 then 0 else (if s[0] == x then 1 else 0) + Count(x, s[1..])
  }

  lemma {:induction false} CountConcat<T>(x: T, a: seq<T>, b: seq<T>)
    ensures Count(x, a + b) == Count(x, a) + Count(x, b)
    decreases |a|
  {
    if |a| > 0 {
      assert (a + b)[1..] == a[1..] + b;
      CountConcat(x, a[1..], b);
    } else {
      assert a + b == b;
    }
  }

  /** A value found at two different indices is counted at least twice. */
  lemma CountTwo<T>(x: T, s: seq<T>, i: nat, j: nat)
    requires i < j < |s| && s[i] == x && s[j] == x
    ensures Count(x, s) >= 2
  {
    assert s == s[..j] + s[j..];
    CountConcat(x, s[..j], s[j..]);
    assert s[..j][i] == x;
    assert s[j..][0] == x;
  }

  /** No value occurs twice in `s`. */
  predicate Distinct<T(==)>(s: seq<T>)
  {
    forall i, j :: 0 <= i < j < |s| ==> s[i] != s[j]
  }

  /** Two sequences glued together are free of repeats exactly when each
      is and they share no value. */
  lemma DistinctConcat<T>(a: seq<T>, b: seq<T>)
    ensures Distinct(a + b) <==> Distinct(a) && Distinct(b) && forall x :: x in a ==> x !in b
  {
    if Distinct(a + b) {
      forall i, j | 0 <= i < j < |a| ensures a[i] != a[j] {
        assert a[i] == (a + b)[i] && a[j] == (a + b)[j];
      }
      forall i, j | 0 <= i < j < |b| ensures b[i] != b[j] {
        assert b[i] == (a + b)[|a| + i] && b[j] == (a + b)[|a| + j];
      }
      forall i, j | 0 <= i < |a| && 0 <= j < |b| ensures a[i] != b[j] {
        assert a[i] == (a + b)[i] && b[j] == (a + b)[|a| + j];
      }
    }
    if Distinct(a) && Distinct(b) && forall x :: x in a ==> x !in b {
      forall i, j | 0 <= i < j < |a + b| ensures (a + b)[i] != (a + b)[j] {
        if j < |a| {
        } else if i >= |a| {
          assert (a + b)[i] == b[i - |a|] && (a + b)[j] == b[j - |a|];
        } else {
          assert (a + b)[i] in a && (a + b)[j] in b;
        }
      }
    }
  }
}

=== FILE: arcnames.dfy ===
/** The in-archive name (arcname) of a walked file: the search root in its
    path is replaced by `<archive stem>/subprojects`. */
module Arcnames {
  import opened Text

  /** `"/".join([aname, 'subprojects'])`: the directory inside the archive
      that receives the injected tree. */
  function SubprojectsDir(aname: string): (r: string)
    ensures |r| == |aname| + 12
    ensures aname <= r && r[|aname|] == '/'
  {
    aname + "/" + "subprojects"
  }

  /** The arcname as the script computes it, `fpath.replace(search_path,
      ...)`: EVERY occurrence of the search root is rewritten, not only
      the leading one. */
  function ArcnameAsWritten(aname: string, searchPath: string, fpath: string): (r: string)
    ensures searchPath == SubprojectsDir(aname) ==> r == fpath
  {
    ReplaceAll(fpath, searchPath, SubprojectsDir(aname))
  }

  /** The arcname as evidently intended: only the leading search root is
      replaced and the relative part is kept as it is. A path outside the
      root (which a walk of the root never yields) is left alone, as
      `str.replace` leaves a path in which the root does not occur. */
  function Arcname(aname: string, searchPath: string, fpath: string): (r: string)
    ensures searchPath <= fpath ==> SubprojectsDir(aname) <= r
    ensures searchPath <= fpath ==> |r| - |SubprojectsDir(aname)| == |fpath| - |searchPath|
    ensures searchPath <= fpath ==> r[|SubprojectsDir(aname)|..] == fpath[|searchPath|..]
  {
    if searchPath <= fpath then SubprojectsDir(aname) + fpath[|searchPath|..] else fpath
  }

  /** Under the root, the script's arcname starts with the subprojects
      directory, and the relative part is itself passed through the
      replace-all; when the root does not recur in the relative part, the
      relative part is kept unchanged, exactly as the intended mapping
      does. */
  lemma ArcnameAsWrittenUnderRoot(aname: string, searchPath: string, rest: string)
    requires |searchPath| > 0
    ensures ArcnameAsWritten(aname, searchPath, searchPath + rest)
         == SubprojectsDir(aname) + ReplaceAll(rest, searchPath, SubprojectsDir(aname))
    ensures !Occurs(rest, searchPath) ==>
              ArcnameAsWritten(aname, searchPath, searchPath + rest) == SubprojectsDir(aname) + rest
    ensures !Occurs(rest, searchPath) ==>
              ArcnameAsWritten(aname, searchPath, searchPath + rest) == Arcname(aname, searchPath, searchPath + rest)
  {
    ReplaceLeading(searchPath, rest, SubprojectsDir(aname));
    if !Occurs(rest, searchPath) {
      ReplaceAbsent(rest, searchPath, SubprojectsDir(aname));
      assert (searchPath + rest)[|searchPath|..] == rest;
    }
  }

  /** The same for a path given whole rather than split at the root. */
  lemma ArcnameAsWrittenOfRootedPath(aname: string, searchPath: string, fpath: string)
    requires |searchPath| > 0 && searchPath <= fpath
    ensures ArcnameAsWritten(aname, searchPath, fpath)
         == SubprojectsDir(aname) + ReplaceAll(fpath[|searchPath|..], searchPath, SubprojectsDir(aname))
  {
    var rest := fpath[|searchPath|..];
    assert fpath == searchPath + rest;
    ArcnameAsWrittenUnderRoot(aname, searchPath, rest);
  }

  /** A path in which the root does not occur at all is left unchanged by
      both mappings. */
  lemma ArcnameOutsideRoot(aname: string, searchPath: string, fpath: string)
    requires |searchPath| > 0 && !Occurs(fpath, searchPath)
    ensures ArcnameAsWritten(aname, searchPath, fpath) == fpath
    ensures Arcname(aname, searchPath, fpath) == fpath
  {
    ReplaceAbsent(fpath, searchPath, SubprojectsDir(aname));
    assert !OccursAt(fpath, searchPath, 0);
  }

  /** The intended mapping can be undone: putting the search root back in
      front of the relative part of the arcname gives the walked path. */
  lemma ArcnameRoundTrip(aname: string, searchPath: string, fpath: string)
    requires searchPath <= fpath
    ensures searchPath + Arcname(aname, searchPath, fpath)[|SubprojectsDir(aname)|..] == fpath
  {
  }

  /** Two different files under the root always receive different arcnames
      from the intended mapping. */
  lemma ArcnameInjective(aname: string, searchPath: string, p: string, q: string)
    requires searchPath <= p && searchPath <= q
    requires Arcname(aname, searchPath, p) == Arcname(aname, searchPath, q)
    ensures p == q
  {
    ArcnameRoundTrip(aname, searchPath, p);
    ArcnameRoundTrip(aname, searchPath, q);
  }

  /** The script's mapping rewrites a nested directory whose path repeats
      the search root: the repeated root inside the relative part is
      replaced too, while the intended mapping keeps it. */
  lemma ArcnameAsWrittenRewritesNestedRoot(aname: string, searchPath: string, mid: string, file: string)
    requires |searchPath| > 0
    requires forall i: nat :: i < |mid| ==> !OccursAt(mid + (searchPath + file), searchPath, i)
    requires !Occurs(file, searchPath)
    ensures ArcnameAsWritten(aname, searchPath, searchPath + (mid + (searchPath + file)))
         == SubprojectsDir(aname) + (mid + (SubprojectsDir(aname) + file))
    ensures Arcname(aname, searchPath, searchPath + (mid + (searchPath + file)))
         == SubprojectsDir(aname) + (mid + (searchPath + file))
  {
    var dir := SubprojectsDir(aname);
    var path := searchPath + (mid + (searchPath + file));
    assert ArcnameAsWritten(aname, searchPath, path) == dir + (mid + (dir + file)) by {
      ReplaceLeading(searchPath, mid + (searchPath + file), dir);
      ReplaceKeepsUntouchedPrefix(mid, searchPath + file, searchPath, dir);
      ReplaceLeading(searchPath, file, dir);
      ReplaceAbsent(file, searchPath, dir);
    }
    assert Arcname(aname, searchPath, path) == dir + (mid + (searchPath + file)) by {
      assert searchPath <= path;
      assert path[|searchPath|..] == mid + (searchPath + file);
    }
  }

  /** Under the root the two mappings agree exactly when the root does
      not recur in the relative part, however often it recurs, unless the
      root is spelled exactly like the subprojects directory. */
  lemma ArcnameAsWrittenAgreesIffNoNestedRoot(aname: string, searchPath: string, rest: string)
    requires |searchPath| > 0 && searchPath != SubprojectsDir(aname)
    ensures ArcnameAsWritten(aname, searchPath, searchPath + rest) == Arcname(aname, searchPath, searchPath + rest)
        <==> !Occurs(rest, searchPath)
  {
    var dir := SubprojectsDir(aname);
    ArcnameAsWrittenUnderRoot(aname, searchPath, rest);
    assert Arcname(aname, searchPath, searchPath + rest) == dir + rest by {
      assert (searchPath + rest)[|searchPath|..] == rest;
    }
    if Occurs(rest, searchPath) {
      var replaced := ReplaceAll(rest, searchPath, dir);
      ReplaceChangesOccurring(rest, searchPath, dir);
      assert (dir + replaced)[|dir|..] == replaced;
      assert (dir + rest)[|dir|..] == rest;
    }
  }

  /** No occurrence of `/pkgs` starts inside the `/zlib` directory part
      of the example path. */
  lemma NoPkgsRootInZlib()
    ensures forall i: nat :: i < |"/zlib"| ==> !OccursAt("/zlib" + ("/pkgs" + "/meson.build"), "/pkgs", i)
  {
    var s := "/zlib" + ("/pkgs" + "/meson.build");
    forall i: nat | i < |"/zlib"|
      ensures !OccursAt(s, "/pkgs", i)
    {
      assert s[i + 1] != 'p';
      assert s[i..i + 5][1] == s[i + 1];
    }
  }

  /** `/pkgs` does not occur in the example's file name. */
  lemma NoPkgsRootInFile()
    ensures !Occurs("/meson.build", "/pkgs")
  {
    var file := "/meson.build";
    forall i: nat ensures !OccursAt(file, "/pkgs", i) {
      if i + 5 <= |file| {
        assert file[i..i + 5][1] == file[i + 1];
        assert file[i] != '/' || file[i + 1] != 'p';
      }
    }
  }

  /** The nested-root case on concrete names: under the root `/pkgs`, the
      file `/pkgs/zlib/pkgs/meson.build` is stored by the script as
      `foo/subprojects/zlibfoo/subprojects/meson.build` (the slash in front
      of the inner `pkgs` is swallowed with it), where
      `foo/subprojects/zlib/pkgs/meson.build` is intended. */
  lemma NestedRootExample()
    ensures ArcnameAsWritten("foo", "/pkgs", "/pkgs/zlib/pkgs/meson.build")
         == "foo/subprojects" + ("/zlib" + ("foo/subprojects" + "/meson.build"))
    ensures Arcname("foo", "/pkgs", "/pkgs/zlib/pkgs/meson.build")
         == "foo/subprojects" + ("/zlib" + ("/pkgs" + "/meson.build"))
  {
    var path := "/pkgs" + ("/zlib" + ("/pkgs" + "/meson.build"));
    assert path == "/pkgs/zlib/pkgs/meson.build";
    assert SubprojectsDir("foo") == "foo/subprojects";
    assert ArcnameAsWritten("foo", "/pkgs", path)
        == "foo/subprojects" + ("/zlib" + ("foo/subprojects" + "/meson.build")) by {
      NoPkgsRootInZlib();
      NoPkgsRootInFile();
      ArcnameAsWrittenRewritesNestedRoot("foo", "/pkgs", "/zlib", "/meson.build");
    }
    assert Arcname("foo", "/pkgs", path)
        == "foo/subprojects" + ("/zlib" + ("/pkgs" + "/meson.build")) by {
      assert "/pkgs" <= path;
      assert path[|"/pkgs"|..] == "/zlib" + ("/pkgs" + "/meson.build");
    }
  }

  /** The script's mapping can also send two different files under one
      root to the same arcname, which the append loop then writes twice:
      `root + mid + root` and `root + mid + <subprojects dir>` both become
      `<subprojects dir> + mid + <subprojects dir>` (under the root `/p`
      with stem `x`: `/p/q/p` and `/p/qx/subprojects`). The intended
      mapping never does this (see `ArcnameInjective`). */
  lemma ArcnameAsWrittenNotInjective(aname: string, searchPath: string, mid: string)
    requires |searchPath| > 0 && searchPath != SubprojectsDir(aname)
    requires forall i: nat :: i < |mid| ==> !OccursAt(mid + (searchPath + ""), searchPath, i)
    requires !Occurs(mid + SubprojectsDir(aname), searchPath)
    ensures searchPath + (mid + searchPath) != searchPath + (mid + SubprojectsDir(aname))
    ensures ArcnameAsWritten(aname, searchPath, searchPath + (mid + searchPath))
         == ArcnameAsWritten(aname, searchPath, searchPath + (mid + SubprojectsDir(aname)))
  {
    var dir := SubprojectsDir(aname);
    assert ArcnameAsWritten(aname, searchPath, searchPath + (mid + searchPath)) == dir + (mid + dir) by {
      assert !Occurs("", searchPath);
      ArcnameAsWrittenRewritesNestedRoot(aname, searchPath, mid, "");
      assert searchPath + "" == searchPath && dir + "" == dir;
    }
    assert ArcnameAsWritten(aname, searchPath, searchPath + (mid + dir)) == dir + (mid + dir) by {
      ArcnameAsWrittenUnderRoot(aname, searchPath, mid + dir);
    }
    assert searchPath + (mid + searchPath) != searchPath + (mid + dir) by {
      ConcatMiddleDiffers(searchPath + mid, searchPath, dir, "");
      assert searchPath + (mid + searchPath) == (searchPath + mid) + (searchPath + "");
      assert searchPath + (mid + dir) == (searchPath + mid) + (dir + "");
    }
  }
}

=== FILE: injector.dfy ===
/** The merge step of `meson_dist_injecter.main`: every walked file is
    mapped to an arcname under `<archive stem>/subprojects`, and is
    appended to the archive unless its arcname is in the listing taken
    once, before the first write. */
module Injector {
  import opened Text
  import opened PurePath
  import opened Arcnames
  import opened Archive

  /** One file produced by walking the search root: its path (the root
      joined with the directories and the file name) and its content. */
  datatype WalkedFile = WalkedFile(path: string, data: seq<byte>)

  /** One `(lpath, arcname)` pair of the `additions` generator, with the
      content `zfile.write` reads from `lpath`. */
  datatype Candidate = Candidate(lpath: string, arcname: string, data: seq<byte>)

  /** The state of the append loop: the archive's entries so far and the
      candidates reported as skipped so far. */
  datatype Run = Run(archive: seq<Entry>, skipped: seq<Candidate>)

  /** What `--archive` names on disk when `zipfile.ZipFile(path, 'a')`
      opens it: nothing at all, a file that is not a zip archive, or a zip
      archive with its entries. */
  datatype ArchiveFile = Absent | Foreign | Zip(entries: seq<Entry>)

  /** The entries the append-mode open starts from. A missing file is
      created and a file without a zip directory gets a new archive
      appended behind its bytes, so in both cases the run starts from no
      entries instead of failing. */
  function Opened(f: ArchiveFile): (r: seq<Entry>)
    ensures f.Zip? ==> r == f.entries
    ensures !f.Zip? ==> |r| == 0
  {
    match f
    case Zip(entries) => entries
    case _ => []
  }

  /** `Path(archive).stem`: the archive's file name without its final
      suffix. */
  function ArchiveStem(archivePath: string): (r: string)
    ensures r <= Name(archivePath)
  {
    Stem(Name(archivePath))
  }

  /** The `additions` generator over a given walk: one candidate per
      walked file, in walk order, named by the prefix mapping. */
  function Additions(archivePath: string, searchPath: string, walk: seq<WalkedFile>): (r: seq<Candidate>)
    ensures |r| == |walk|
    ensures forall i :: 0 <= i < |walk| ==> r[i].lpath == walk[i].path && r[i].data == walk[i].data
    ensures forall i :: 0 <= i < |walk| && searchPath <= walk[i].path ==>
              r[i].arcname == SubprojectsDir(ArchiveStem(archivePath)) + walk[i].path[|searchPath|..]
  {
    var aname := ArchiveStem(archivePath);
    seq(|walk|, i requires 0 <= i < |walk| =>
      Candidate(walk[i].path, Arcname(aname, searchPath, walk[i].path), walk[i].data))
  }

  /** The `additions` generator exactly as the script computes it: one
      candidate per walked file, in walk order, named by `str.replace` of
      the search root, which rewrites every occurrence of the root. */
  function AdditionsAsWritten(archivePath: string, searchPath: string, walk: seq<WalkedFile>): (r: seq<Candidate>)
    ensures |r| == |walk|
    ensures forall i :: 0 <= i < |walk| ==> r[i].lpath == walk[i].path && r[i].data == walk[i].data
  {
    var aname := ArchiveStem(archivePath);
    seq(|walk|, i requires 0 <= i < |walk| =>
      Candidate(walk[i].path, ArcnameAsWritten(aname, searchPath, walk[i].path), walk[i].data))
  }

  /** Under a non-empty root the script's arcname is the subprojects
      directory followed by the relative part, itself passed through the
      replace-all. */
  lemma AdditionsAsWrittenUnderRoot(archivePath: string, searchPath: string, walk: seq<WalkedFile>, i: nat)
    requires |searchPath| > 0 && i < |walk| && searchPath <= walk[i].path
    ensures AdditionsAsWritten(archivePath, searchPath, walk)[i].arcname
         == SubprojectsDir(ArchiveStem(archivePath))
            + ReplaceAll(walk[i].path[|searchPath|..], searchPath, SubprojectsDir(ArchiveStem(archivePath)))
  {
    var aname := ArchiveStem(archivePath);
    assert AdditionsAsWritten(archivePath, searchPath, walk)[i].arcname
        == ArcnameAsWritten(aname, searchPath, walk[i].path);
    ArcnameAsWrittenOfRootedPath(aname, searchPath, walk[i].path);
  }

  /** The arcnames of a candidate list, in order. */
  function ArcnamesOf(cs: seq<Candidate>): (r: seq<string>)
    ensures |r| == |cs|
    ensures forall i :: 0 <= i < |cs| ==> r[i] == cs[i].arcname
    decreases |cs|
  {
    if |cs| == 0 then [] else [cs[0].arcname] + ArcnamesOf(cs[1..])
  }

  /** One iteration of the append loop against the fixed `listing`: a
      listed arcname is reported and leaves the archive as it is; any
      other arcname adds exactly one entry, at the end. */
  function Step(listing: seq<string>, run: Run, c: Candidate): (r: Run)
    ensures run.archive <= r.archive && run.skipped <= r.skipped
    ensures c.arcname in listing <==> r.archive == run.archive
    ensures c.arcname in listing ==> r.skipped == run.skipped + [c]
    ensures c.arcname !in listing ==> r.archive[|run.archive|..] == [Entry(c.arcname, c.data)]
    ensures c.arcname !in listing ==> r.skipped == run.skipped
  {
    if c.arcname in listing then Run(run.archive, run.skipped + [c])
    else Run(run.archive + [Entry(c.arcname, c.data)], run.skipped)
  }

  /** The append loop over the remaining candidates, in order, always
      checked against the same `listing`. */
  function Fold(listing: seq<string>, run: Run, cs: seq<Candidate>): (r: Run)
    ensures run.archive <= r.archive && run.skipped <= r.skipped
    ensures forall k :: |run.archive| <= k < |r.archive| ==> r.archive[k].name !in listing
    ensures forall k :: |run.skipped| <= k < |r.skipped| ==> r.skipped[k].arcname in listing
    ensures |r.archive| + |r.skipped| == |run.archive| + |run.skipped| + |cs|
    decreases |cs|
  {
    if |cs| == 0 then run else Fold(listing, Step(listing, run, cs[0]), cs[1..])
  }

  /** The `with zipfile.ZipFile(...)` block: snapshot the names once, then
      run the loop over all candidates. Existing entries stay first and
      unchanged, every added entry has a name outside the snapshot, every
      skipped candidate's name is in it, and each candidate is either
      added or skipped. */
  function Merge(archive: seq<Entry>, cs: seq<Candidate>): (r: Run)
    ensures archive <= r.archive
    ensures forall k :: |archive| <= k < |r.archive| ==> r.archive[k].name !in Names(archive)
    ensures forall c :: c in r.skipped ==> c.arcname in Names(archive)
    ensures |r.archive| - |archive| + |r.skipped| == |cs|
  {
    Fold(Names(archive), Run(archive, []), cs)
  }

  /** Reference definition of the entries the run appends: the candidates
      whose arcname is outside the listing, as entries, in candidate
      order. */
  function Appended(listing: seq<string>, cs: seq<Candidate>): (r: seq<Entry>)
    ensures |r| <= |cs|
    ensures forall k :: 0 <= k < |r| ==> r[k].name !in listing
    decreases |cs|
  {
    if |cs| == 0 then []
    else (if cs[0].arcname in listing then [] else [Entry(cs[0].arcname, cs[0].data)])
         + Appended(listing, cs[1..])
  }

  /** Reference definition of the skip report: the candidates whose
      arcname is in the listing, in candidate order. */
  function Skipped(listing: seq<string>, cs: seq<Candidate>): (r: seq<Candidate>)
    ensures |r| <= |cs|
    ensures forall k :: 0 <= k < |r| ==> r[k].arcname in listing
    decreases |cs|
  {
    if |cs| == 0 then []
    else (if cs[0].arcname in listing then [cs[0]] else []) + Skipped(listing, cs[1..])
  }

  /** The loop equals the reference filters: it appends exactly the
      unlisted candidates and reports exactly the listed ones, both in
      candidate order. */
  lemma {:induction false} FoldIsFilter(listing: seq<string>, run: Run, cs: seq<Candidate>)
    ensures Fold(listing, run, cs).archive == run.archive + Appended(listing, cs)
    ensures Fold(listing, run, cs).skipped == run.skipped + Skipped(listing, cs)
    decreases |cs|
  {
    FoldAppends(listing, run, cs);
    FoldSkips(listing, run, cs);
  }

  lemma {:induction false} FoldAppends(listing: seq<string>, run: Run, cs: seq<Candidate>)
    ensures Fold(listing, run, cs).archive == run.archive + Appended(listing, cs)
    decreases |cs|
  {
    if |cs| == 0 {
      assert run.archive + [] == run.archive;
    } else {
      var c, rest := cs[0], cs[1..];
      var next := Step(listing, run, c);
      FoldAppends(listing, next, rest);
      var head := if c.arcname in listing then [] else [Entry(c.arcname, c.data)];
      assert next.archive == run.archive + head;
      assert Appended(listing, cs) == head + Appended(listing, rest);
      var tail := Appended(listing, rest);
      assert run.archive + head + tail == run.archive + (head + tail) by {
        var x, y := run.archive + head + tail, run.archive + (head + tail);
        assert forall k :: 0 <= k < |x| ==> x[k] == y[k];
      }
    }
  }

  lemma {:induction false} FoldSkips(listing: seq<string>, run: Run, cs: seq<Candidate>)
    ensures Fold(listing, run, cs).skipped == run.skipped + Skipped(listing, cs)
    decreases |cs|
  {
    if |cs| == 0 {
      assert run.skipped + [] == run.skipped;
    } else {
      var c, rest := cs[0], cs[1..];
      var next := Step(listing, run, c);
      FoldSkips(listing, next, rest);
      var head := if c.arcname in listing then [c] else [];
      assert next.skipped == run.skipped + head;
      assert Skipped(listing, cs) == head + Skipped(listing, rest);
      var tail := Skipped(listing, rest);
      assert run.skipped + head + tail == run.skipped + (head + tail) by {
        var x, y := run.skipped + head + tail, run.skipped + (head + tail);
        assert forall k :: 0 <= k < |x| ==> x[k] == y[k];
      }
    }
  }

  /** The whole run: the original archive followed by the unlisted
      candidates' entries in walk order, with the listed ones reported. */
  lemma MergeIsFilter(archive: seq<Entry>, cs: seq<Candidate>)
    ensures Merge(archive, cs)
         == Run(archive + Appended(Names(archive), cs), Skipped(Names(archive), cs))
  {
    FoldIsFilter(Names(archive), Run(archive, []), cs);
  }

  /** Every unlisted candidate contributes its own entry, with its arcname
      and its content. */
  lemma {:induction false} AppendedHasCandidate(listing: seq<string>, cs: seq<Candidate>, i: nat)
    requires i < |cs| && cs[i].arcname !in listing
    ensures Entry(cs[i].arcname, cs[i].data) in Appended(listing, cs)
    decreases |cs|
  {
    if i > 0 {
      AppendedHasCandidate(listing, cs[1..], i - 1);
    }
  }

  /** Every listed candidate is reported as skipped. */
  lemma {:induction false} SkippedHasCandidate(listing: seq<string>, cs: seq<Candidate>, i: nat)
    requires i < |cs| && cs[i].arcname in listing
    ensures cs[i] in Skipped(listing, cs)
    decreases |cs|
  {
    if i > 0 {
      SkippedHasCandidate(listing, cs[1..], i - 1);
    }
  }

  /** A name in the listing is never appended; any other name is appended
      once per candidate that carries it. */
  lemma {:induction false} AppendedNameCount(n: string, listing: seq<string>, cs: seq<Candidate>)
    ensures Count(n, Names(Appended(listing, cs)))
         == if n in listing then 0 else Count(n, ArcnamesOf(cs))
    decreases |cs|
  {
    if |cs| > 0 {
      var c := cs[0];
      var head := if c.arcname in listing then [] else [Entry(c.arcname, c.data)];
      var tail := Appended(listing, cs[1..]);
      AppendedNameCount(n, listing, cs[1..]);
      assert Appended(listing, cs) == head + tail;
      NamesConcat(head, tail);
      CountConcat(n, Names(head), Names(tail));
      CountConcat(n, [c.arcname], ArcnamesOf(cs[1..]));
      assert Count(n, Names(head)) == if n in listing then 0 else Count(n, [c.arcname]);
    }
  }

  /** How often a name occurs after the run: unchanged if the snapshot
      had it, otherwise once per candidate carrying it. */
  lemma MergeNameCount(archive: seq<Entry>, cs: seq<Candidate>, n: string)
    ensures Count(n, Names(Merge(archive, cs).archive))
         == Count(n, Names(archive)) + if n in Names(archive) then 0 else Count(n, ArcnamesOf(cs))
  {
    MergeIsFilter(archive, cs);
    NamesConcat(archive, Appended(Names(archive), cs));
    CountConcat(n, Names(archive), Names(Appended(Names(archive), cs)));
    AppendedNameCount(n, Names(archive), cs);
  }

  /** The stale snapshot lets a name in twice: two candidates with the
      same arcname, absent from the snapshot, are both appended, each with
      its own content. */
  lemma MergeDuplicatesWithinRun(archive: seq<Entry>, cs: seq<Candidate>, i: nat, j: nat)
    requires i < j < |cs|
    requires cs[i].arcname == cs[j].arcname && cs[i].arcname !in Names(archive)
    ensures Count(cs[i].arcname, Names(Merge(archive, cs).archive)) >= 2
    ensures Entry(cs[i].arcname, cs[i].data) in Merge(archive, cs).archive
    ensures Entry(cs[j].arcname, cs[j].data) in Merge(archive, cs).archive
  {
    var n := cs[i].arcname;
    assert Count(n, Names(Merge(archive, cs).archive)) >= 2 by {
      MergeNameCount(archive, cs, n);
      CountTwo(n, ArcnamesOf(cs), i, j);
    }
    MergeIsFilter(archive, cs);
    AppendedHasCandidate(Names(archive), cs, i);
    AppendedHasCandidate(Names(archive), cs, j);
  }

  /** Nothing is overwritten: a candidate named like an existing entry is
      reported, and the entry keeps its place and its content. */
  lemma MergeNoOverwrite(archive: seq<Entry>, cs: seq<Candidate>, i: nat, k: nat)
    requires i < |cs| && k < |archive| && cs[i].arcname == archive[k].name
    ensures cs[i] in Merge(archive, cs).skipped
    ensures Merge(archive, cs).archive[k] == archive[k]
  {
    MergeIsFilter(archive, cs);
    SkippedHasCandidate(Names(archive), cs, i);
  }

  /** Every candidate's arcname is in the archive after the run, either
      because it was listed before or because it was just appended. */
  lemma MergeCoversCandidates(archive: seq<Entry>, cs: seq<Candidate>)
    ensures forall c :: c in cs ==> c.arcname in Names(Merge(archive, cs).archive)
  {
    var r := Merge(archive, cs);
    MergeIsFilter(archive, cs);
    NamesConcat(archive, Appended(Names(archive), cs));
    forall c | c in cs ensures c.arcname in Names(r.archive) {
      var i :| 0 <= i < |cs| && cs[i] == c;
      if c.arcname !in Names(archive) {
        AppendedHasCandidate(Names(archive), cs, i);
        var e := Entry(c.arcname, c.data);
        var k :| 0 <= k < |Appended(Names(archive), cs)| && Appended(Names(archive), cs)[k] == e;
        assert Names(r.archive)[|archive| + k] == c.arcname;
      }
    }
  }

  /** With every arcname listed, the loop changes nothing and reports
      every candidate. */
  lemma {:induction false} FoldAllListed(listing: seq<string>, run: Run, cs: seq<Candidate>)
    requires forall c :: c in cs ==> c.arcname in listing
    ensures Fold(listing, run, cs) == Run(run.archive, run.skipped + cs)
    decreases |cs|
  {
    if |cs| == 0 {
      assert run.skipped + cs == run.skipped;
    } else {
      assert cs[0] in cs;
      forall c | c in cs[1..] ensures c.arcname in listing {
        assert c in cs;
      }
      FoldAllListed(listing, Step(listing, run, cs[0]), cs[1..]);
      assert run.skipped + [cs[0]] + cs[1..] == run.skipped + cs;
    }
  }

  /** A second run with the same candidates adds nothing and reports every
      candidate as skipped. */
  lemma MergeIdempotent(archive: seq<Entry>, cs: seq<Candidate>)
    ensures Merge(Merge(archive, cs).archive, cs) == Run(Merge(archive, cs).archive, cs)
  {
    var after := Merge(archive, cs).archive;
    MergeCoversCandidates(archive, cs);
    FoldAllListed(Names(after), Run(after, []), cs);
    assert [] + cs == cs;
  }

  /** Starting from an archive without repeated names, the run keeps it
      that way exactly when the appended arcnames are pairwise distinct. */
  lemma MergeKeepsNamesDistinct(archive: seq<Entry>, cs: seq<Candidate>)
    requires Distinct(Names(archive))
    ensures Distinct(Names(Merge(archive, cs).archive))
        <==> Distinct(Names(Appended(Names(archive), cs)))
  {
    var added := Appended(Names(archive), cs);
    MergeIsFilter(archive, cs);
    NamesConcat(archive, added);
    DistinctConcat(Names(archive), Names(added));
  }

  /** The intended generator agrees with the script's whenever no walked
      path repeats the search root after its leading occurrence. */
  lemma AdditionsMatchSource(archivePath: string, searchPath: string, walk: seq<WalkedFile>)
    requires |searchPath| > 0
    requires forall i :: 0 <= i < |walk| ==>
               searchPath <= walk[i].path && !Occurs(walk[i].path[|searchPath|..], searchPath)
    ensures Additions(archivePath, searchPath, walk) == AdditionsAsWritten(archivePath, searchPath, walk)
  {
    var cs := Additions(archivePath, searchPath, walk);
    var ws := AdditionsAsWritten(archivePath, searchPath, walk);
    forall i | 0 <= i < |walk|
      ensures cs[i] == ws[i]
    {
      var rest := walk[i].path[|searchPath|..];
      assert walk[i].path == searchPath + rest;
      ArcnameAsWrittenUnderRoot(ArchiveStem(archivePath), searchPath, rest);
    }
  }

  /** The script and the intended generator name a walked file under the
      root alike exactly when its relative part does not repeat the root,
      whether it repeats it once or many times. */
  lemma AdditionsAgreeIffNoNestedRoot(archivePath: string, searchPath: string, walk: seq<WalkedFile>, i: nat)
    requires |searchPath| > 0 && searchPath != SubprojectsDir(ArchiveStem(archivePath))
    requires i < |walk| && searchPath <= walk[i].path
    ensures AdditionsAsWritten(archivePath, searchPath, walk)[i].arcname
         == Additions(archivePath, searchPath, walk)[i].arcname
        <==> !Occurs(walk[i].path[|searchPath|..], searchPath)
  {
    var aname := ArchiveStem(archivePath);
    var rest := walk[i].path[|searchPath|..];
    assert AdditionsAsWritten(archivePath, searchPath, walk)[i].arcname
        == ArcnameAsWritten(aname, searchPath, searchPath + rest);
    assert Additions(archivePath, searchPath, walk)[i].arcname
        == Arcname(aname, searchPath, searchPath + rest);
    ArcnameAsWrittenAgreesIffNoNestedRoot(aname, searchPath, rest);
  }

  /** The intended generator never gives two different walked files under
      the root the same arcname. */
  lemma AdditionsArcnamesDistinct(archivePath: string, searchPath: string, walk: seq<WalkedFile>)
    requires forall i :: 0 <= i < |walk| ==> searchPath <= walk[i].path
    requires forall i, j :: 0 <= i < j < |walk| ==> walk[i].path != walk[j].path
    ensures Distinct(ArcnamesOf(Additions(archivePath, searchPath, walk)))
  {
    var cs := Additions(archivePath, searchPath, walk);
    var names := ArcnamesOf(cs);
    forall i, j | 0 <= i < j < |names| ensures names[i] != names[j] {
      if names[i] == names[j] {
        ArcnameInjective(ArchiveStem(archivePath), searchPath, walk[i].path, walk[j].path);
      }
    }
  }

  /** Into an archive with no entries every candidate is appended, with
      its arcname and content, in walk order, and none is reported. */
  lemma MergeIntoEmpty(cs: seq<Candidate>)
    ensures |Merge([], cs).archive| == |cs|
    ensures forall k :: 0 <= k < |cs| ==> Merge([], cs).archive[k] == Entry(cs[k].arcname, cs[k].data)
    ensures Merge([], cs).skipped == []
  {
    MergeIsFilter([], cs);
    AppendedUnlisted(cs);
  }

  /** With an empty listing the reference filters keep every candidate. */
  lemma {:induction false} AppendedUnlisted(cs: seq<Candidate>)
    ensures |Appended([], cs)| == |cs|
    ensures forall k :: 0 <= k < |cs| ==> Appended([], cs)[k] == Entry(cs[k].arcname, cs[k].data)
    ensures Skipped([], cs) == []
    decreases |cs|
  {
    if |cs| > 0 {
      AppendedUnlisted(cs[1..]);
    }
  }

  /** `main`: opens the archive for appending, runs the append loop over
      the walk and returns exit status 0. The archive afterwards is the
      entries it was opened with, followed by one entry per walked file
      whose arcname (computed as the script does) was not listed at the
      start, in walk order; the others are the skip report. A missing or
      non-zip archive is not an error: every walked file is appended. */
  method Inject(archivePath: string, searchPath: string, file: ArchiveFile, walk: seq<WalkedFile>)
    returns (after: seq<Entry>, skipped: seq<Candidate>, status: int)
    ensures Run(after, skipped) == Merge(Opened(file), AdditionsAsWritten(archivePath, searchPath, walk))
    ensures after == Opened(file) + Appended(Names(Opened(file)), AdditionsAsWritten(archivePath, searchPath, walk))
    ensures skipped == Skipped(Names(Opened(file)), AdditionsAsWritten(archivePath, searchPath, walk))
    ensures !file.Zip? ==> |after| == |walk| && skipped == []
    ensures status == 0
  {
    var archive := Opened(file);
    var aname := ArchiveStem(archivePath);
    var listing := Names(archive);
    ghost var cs := AdditionsAsWritten(archivePath, searchPath, walk);
    after, skipped := archive, [];
    var i := 0;
    while i < |walk|
      invariant 0 <= i <= |walk|
      invariant Fold(listing, Run(after, skipped), cs[i..]) == Merge(archive, cs)
    {
      var lpath := walk[i].path;
      var arcname := ArcnameAsWritten(aname, searchPath, lpath);
      assert cs[i] == Candidate(lpath, arcname, walk[i].data);
      assert cs[i..][1..] == cs[i + 1..];
      if arcname in listing {
        skipped := skipped + [Candidate(lpath, arcname, walk[i].data)];
      } else {
        after := after + [Entry(arcname, walk[i].data)];
      }
      i := i + 1;
    }
    MergeIsFilter(archive, cs);
    if !file.Zip? {
      MergeIntoEmpty(cs);
    }
    status := 0;
  }
}

=== FILE: pure_path.dfy ===
/** The two pieces of `pathlib.PurePath` the injector uses to derive the
    archive's base name: `name` (the final path component) and `stem`
    (that component without its final suffix). POSIX separators only. */
module PurePath {

  /** Python's `s.rfind(c)`: the index of the last `c` in `s`, or -1. */
  function RFind(s: string, c: char): (r: int)
    ensures -1 <= r < |s|
    ensures r >= 0 ==> s[r] == c
    ensures forall j :: r < j < |s| ==> s[j] != c
    decreases |s|
  {
    if |s| == 0 then -1
    else if s[|s| - 1] == c then |s| - 1
    else RFind(s[..|s| - 1], c)
  }

  /** `PurePath(path).name` for a path already normalised by `abspath`
      (no trailing separator, no `.` components): the text after the last
      `/`, which is the empty string for the root `/`. */
  function Name(path: string): (r: string)
    ensures forall j :: 0 <= j < |r| ==> r[j] != '/'
    ensures |r| <= |path| && path[|path| - |r|..] == r
    ensures |r| < |path| ==> path[|path| - |r| - 1] == '/'
  {
    path[RFind(path, '/') + 1..]
  }

  /** `PurePath(name).stem` as Python 3.13 and earlier define it: the
      final suffix starts at the last `.`, and only counts when that dot
      is neither the first nor the last character; otherwise the whole
      name is the stem. */
  function Stem(name: string): (r: string)
    ensures r <= name
    ensures r == name || (0 < |r| && |r| + 2 <= |name| && name[|r|] == '.')
    ensures r != name ==> forall j :: |r| < j < |name| ==> name[j] != '.'
  {
    var i := RFind(name, '.');
    if 0 < i < |name| - 1 then name[..i] else name
  }

  /** Removing the final suffix: a non-empty base, a dot and a non-empty
      extension without dots gives back exactly the base, dots inside the
      base included (`foo-1.0.zip` has stem `foo-1.0`). */
  lemma StemDropsFinalSuffix(base: string, ext: string)
    requires 0 < |base| && 0 < |ext|
    requires forall j :: 0 <= j < |ext| ==> ext[j] != '.'
    ensures Stem(base + "." + ext) == base
  {
    var name := base + "." + ext;
    var i := RFind(name, '.');
    assert name[|base|] == '.';
    assert i == |base|;
    assert name[..i] == base;
  }

  /** A name whose last dot is its first or last character, or which has
      no dot at all, is its own stem (`.profile`, `a.b.`, `README`). With
      `StemDropsFinalSuffix` this covers every name. */
  lemma StemKeepsNameWithoutSuffix(name: string)
    requires RFind(name, '.') <= 0 || RFind(name, '.') == |name| - 1
    ensures Stem(name) == name
  {
  }

  /** The final component of `dir/file` is `file` when `file` has no
      separator. */
  lemma NameOfJoin(dir: string, file: string)
    requires forall j :: 0 <= j < |file| ==> file[j] != '/'
    ensures Name(dir + "/" + file) == file
  {
    var path := dir + "/" + file;
    assert path[|dir|] == '/';
    assert RFind(path, '/') == |dir|;
    assert path[|dir| + 1..] == file;
  }

  /** The base name of an archive `dir/base.ext`, with a single-component
      extension, is `base` (`/work/dist/foo-1.0.zip` gives `foo-1.0`). */
  lemma StemOfArchivePath(dir: string, base: string, ext: string)
    requires 0 < |base| && 0 < |ext|
    requires forall j :: 0 <= j < |base| ==> base[j] != '/'
    requires forall j :: 0 <= j < |ext| ==> ext[j] != '/' && ext[j] != '.'
    ensures Stem(Name(dir + "/" + (base + "." + ext))) == base
  {
    var file := base + "." + ext;
    forall j | 0 <= j < |file| ensures file[j] != '/' {
      if j < |base| {
        assert file[j] == base[j];
      } else if j > |base| {
        assert file[j] == ext[j - |base| - 1];
      }
    }
    NameOfJoin(dir, file);
    StemDropsFinalSuffix(base, ext);
  }
}

=== FILE: text.dfy ===
/** Text operations on strings (`seq<char>`), modelled on Python's `str`. */
module Text {

  /** `pat` occurs in `s` starting at index `i`. */
  predicate OccursAt(s: string, pat: string, i: nat)
  {
    i + |pat| <= |s| && s[i..i + |pat|] == pat
  }

  /** `pat` occurs somewhere in `s`. */
  ghost predicate Occurs(s: string, pat: string)
  {
    exists i: nat :: OccursAt(s, pat, i)
  }

  /** Python's `s.replace(pat, rep)` without a count: every occurrence of
      `pat` is replaced, scanning left to right and never overlapping a
      replaced occurrence. An empty `pat` matches before every character
      and at the end, so `rep` is inserted around every character. */
  function ReplaceAll(s: string, pat: string, rep: string): (r: string)
    ensures rep == pat ==> r == s
    decreases |s|
  {
    if |pat| == 0 then
      if |s| == 0 then rep else rep + [s[0]] + ReplaceAll(s[1..], pat, rep)
    else if |s| == 0 then []
    else if pat <= s then rep + ReplaceAll(s[|pat|..], pat, rep)
    else [s[0]] + ReplaceAll(s[1..], pat, rep)
  }

  /** A string in which the (non-empty) pattern never occurs is returned
      unchanged. */
  lemma {:induction false} ReplaceAbsent(s: string, pat: string, rep: string)
    requires |pat| > 0
    requires !Occurs(s, pat)
    ensures ReplaceAll(s, pat, rep) == s
    decreases |s|
  {
    if |s| > 0 {
      assert !OccursAt(s, pat, 0);
      if !Occurs(s[1..], pat) {
        ReplaceAbsent(s[1..], pat, rep);
      } else {
        var i: nat :| OccursAt(s[1..], pat, i);
        assert s[i + 1..i + 1 + |pat|] == s[1..][i..i + |pat|];
        assert OccursAt(s, pat, i + 1);
        assert false;
      }
    }
  }

  /** A leading occurrence of a non-empty pattern is replaced, and the
      rest of the string is processed on its own. */
  lemma ReplaceLeading(pat: string, rest: string, rep: string)
    requires |pat| > 0
    ensures ReplaceAll(pat + rest, pat, rep) == rep + ReplaceAll(rest, pat, rep)
  {
    assert pat <= pat + rest;
    assert (pat + rest)[|pat|..] == rest;
  }

  /** A prefix in which no occurrence of the pattern starts is copied
      unchanged, and replacement goes on in the rest. */
  lemma {:induction false} ReplaceKeepsUntouchedPrefix(a: string, b: string, pat: string, rep: string)
    requires |pat| > 0
    requires forall i: nat :: i < |a| ==> !OccursAt(a + b, pat, i)
    ensures ReplaceAll(a + b, pat, rep) == a + ReplaceAll(b, pat, rep)
    decreases |a|
  {
    if |a| == 0 {
      assert a + b == b;
    } else {
      assert !OccursAt(a + b, pat, 0);
      assert (a + b)[1..] == a[1..] + b;
      forall i: nat | i < |a[1..]|
        ensures !OccursAt(a[1..] + b, pat, i)
      {
        assert !OccursAt(a + b, pat, i + 1);
      }
      ReplaceKeepsUntouchedPrefix(a[1..], b, pat, rep);
      assert a + ReplaceAll(b, pat, rep) == [a[0]] + (a[1..] + ReplaceAll(b, pat, rep));
    }
  }

  /** A replacement at least as long as the pattern never shortens the
      string. */
  lemma {:induction false} ReplaceNotShorter(s: string, pat: string, rep: string)
    requires |pat| > 0 && |rep| >= |pat|
    ensures |ReplaceAll(s, pat, rep)| >= |s|
    decreases |s|
  {
    if |s| > 0 {
      if pat <= s {
        ReplaceNotShorter(s[|pat|..], pat, rep);
      } else {
        ReplaceNotShorter(s[1..], pat, rep);
      }
    }
  }

  /** A replacement at most as long as the pattern never lengthens the
      string. */
  lemma {:induction false} ReplaceNotLonger(s: string, pat: string, rep: string)
    requires |pat| > 0 && |rep| <= |pat|
    ensures |ReplaceAll(s, pat, rep)| <= |s|
    decreases |s|
  {
    if |s| > 0 {
      if pat <= s {
        ReplaceNotLonger(s[|pat|..], pat, rep);
      } else {
        ReplaceNotLonger(s[1..], pat, rep);
      }
    }
  }

  /** Replacing a pattern that occurs by a different string always changes
      the string: the first occurrence is rewritten, and what follows can
      neither make up for a change of length nor undo a change of text. */
  lemma {:induction false} ReplaceChangesOccurring(s: string, pat: string, rep: string)
    requires |pat| > 0 && rep != pat && Occurs(s, pat)
    ensures ReplaceAll(s, pat, rep) != s
    decreases |s|
  {
    var i: nat :| OccursAt(s, pat, i);
    if pat <= s {
      var t := s[|pat|..];
      assert ReplaceAll(s, pat, rep) == rep + ReplaceAll(t, pat, rep);
      if |rep| == |pat| {
        assert ReplaceAll(s, pat, rep)[..|rep|] == rep;
      } else if |rep| > |pat| {
        ReplaceNotShorter(t, pat, rep);
      } else {
        ReplaceNotLonger(t, pat, rep);
      }
    } else {
      assert i != 0;
      assert s[1..][i - 1..i - 1 + |pat|] == s[i..i + |pat|];
      assert OccursAt(s[1..], pat, i - 1);
      ReplaceChangesOccurring(s[1..], pat, rep);
      assert ReplaceAll(s, pat, rep)[1..] == ReplaceAll(s[1..], pat, rep);
    }
  }

  /** Strings that differ only in one middle part, of any length, differ. */
  lemma ConcatMiddleDiffers(a: string, b: string, d: string, c: string)
    requires b != d
    ensures a + (b + c) != a + (d + c)
  {
    if |b| == |d| {
      assert b == (a + (b + c))[|a|..|a| + |b|];
      assert d == (a + (d + c))[|a|..|a| + |d|];
    }
  }

  /** An empty pattern inserts `rep` before every character and once more
      at the end, so the result grows by `|s| + 1` copies of `rep`. */
  lemma {:induction false} ReplaceEmptyLength(s: string, rep: string)
    ensures |ReplaceAll(s, [], rep)| == |s| + (|s| + 1) * |rep|
    decreases |s|
  {
    if |s| > 0 {
      ReplaceEmptyLength(s[1..], rep);
      assert (|s| + 1) * |rep| == |rep| + |s| * |rep|;
    }
  }
}
